=== FILE: README.md ===
# ShareBox client view logic in Dafny

ShareBox lets a user upload a file, obtain a short share link for it (optionally with a
password and an expiry date), and lets anyone holding the link download it. The server code
that resolves share codes, checks passwords, enforces expiry and counts downloads is not part
of this model; `server/src/app.js` only installs Express
middleware. This project models the logic that the React client itself performs, as pure
functions over immutable records:

- **`FileList`** — the list view model shared by the owner's dashboard table
  (`FileShow.jsx`) and the guest table (`GuestFilePreview.jsx`): case-insensitive name
  search, type filter, active/expired status filter, ten-per-page pagination with
  JavaScript `slice` semantics, and the Previous/Next clamps.
- **`Dashboard`** — 30-character name display, the preview / password-prompt flow, and the
  per-row direct download button.
- **`Guest`** — 20-character name display and delete-by-id.
- **`Upload`** — the upload queue (`UploadPage.jsx`): the 10 MiB limit, removal by index,
  the demo-account and empty-queue guards, which form fields are sent, and the
  expiry-in-hours computation.
- **`DownloadPage`** — the share-link page (`FileDownload.jsx`) as a state machine over
  loading / error page / password prompt / download form, driven by the outcomes of the
  resolve, verify and download requests, which are inputs rather than network calls.
- **`Welcome`** — hour-of-day greeting and profile fallbacks (`WelcomeSection.jsx`).
- **`Icons`**, **`Text`**, **`Seqs`**, **`Options`** — MIME-type icon classification and the
  JavaScript built-ins the components rely on (`toLowerCase`, `startsWith`, `includes`,
  `filter`, `slice`, `null`).

Dates enter as integers: a file's `daysLeft` is the value of
`differenceInDays(expiresAt, now)`, or `None` for the `NaN` that a missing `expiresAt`
gives (a `null` one is the 1970 epoch, an ordinary expired `Some(d)`); the hour of day is a parameter, and the upload expiry is computed from epoch
milliseconds supplied by the caller. A JavaScript falsy
string (empty, `null` or `undefined`) is the empty string; a possibly missing object is an
`Option`.

Each password check is two events, as in the code: the click that sends the request, and
the reply that arrives later while the page stays interactive. The reply handlers act on
what was captured at the click (the dashboard previews the file that was awaiting
verification then), so a reply can land after the prompt was cancelled or already hidden.

## Model

| member | source | states |
|---|---|---|
| `Text.IncludesIffOccurs` | client/src/components/Dashboard/FileShow.jsx:131 | `includes` holds exactly when the search text occurs at some position of the name (both directions) |
| `Text.TruncateIdempotent` | client/src/components/Dashboard/FileShow.jsx:76-78 | shortening an already shortened name changes nothing |
| `Seqs.Select` | client/src/components/Dashboard/FileShow.jsx:130-140 | `filter` keeps an order-preserving subsequence whose elements all pass the test, keeps every element that passes, and returns the input itself exactly when every element passes |
| `Seqs.SelectCount` | client/src/components/Guest/GuestFilePreview.jsx:82 | `filter` keeps every copy of a passing element and no copy of a failing one |
| `Seqs.JsSlice` | client/src/components/Dashboard/FileShow.jsx:144-147 | `slice` with non-negative bounds is the window clipped to the list, empty when the start is past the end, never longer than the list |
| `FileList.Filtered` | client/src/components/Dashboard/FileShow.jsx:130-140 | the listed files are an order-preserving subsequence of the files; each contains the search text case-insensitively, has the selected type when one is set, and passes the status test; every file passing all three tests is listed as often as it occurs, and no other file is |
| `FileList.FilteredMembership` | client/src/components/Guest/GuestFilePreview.jsx:82-95 | a file is listed if and only if it is one of the files and passes all three tests |
| `FileList.NoFilterIsIdentity` | client/src/components/Dashboard/FileShow.jsx:131-137 | with search, type and status all empty the listed files are the files, unchanged |
| `FileList.RowExpiryAgreesWithFilter` | client/src/components/Dashboard/FileShow.jsx:262 | the row's expired flag agrees with the "expired" filter; a file with a day difference that is not expired is exactly what "active" keeps; a file without one (`NaN`) is neither expired nor kept by either filter |
| `FileList.StatusFiltersPartition` | client/src/components/Dashboard/FileShow.jsx:133-137 | the "expired" list, the "active" list and the matching files without a day difference together make up the status-unfiltered list (counts and multisets add up); when every file has a day difference the two status lists alone do |
| `FileList.ExpiryCell` | client/src/components/Dashboard/FileShow.jsx:303-313 | the Expiry cell reads "Expired" exactly when the expired filter keeps the file, a positive day count equal to the day difference exactly when the active filter keeps it, and `NaN` exactly when there is no day difference |
| `FileList.PageCount` | client/src/components/Dashboard/FileShow.jsx:143 | `totalPages` is the least number of ten-item pages that holds n items, and is 0 exactly when n is 0 |
| `FileList.Page` | client/src/components/Dashboard/FileShow.jsx:144-147 | page p holds items (p-1)·10 up to p·10 clipped to the list, at most ten, and, for p ≥ 1, is non-empty exactly when p ≤ totalPages |
| `FileList.AllPagesIsPrefix` | client/src/components/Dashboard/FileShow.jsx:144-147 | pages 1..k laid end to end are the first min(10k, n) listed files |
| `FileList.PagesReassemble` | client/src/components/Guest/GuestFilePreview.jsx:97-101 | pages 1..totalPages laid end to end reproduce the listed files exactly |
| `FileList.Previous` | client/src/components/Dashboard/FileShow.jsx:456 | Previous never goes below 1, steps back by one above page 1, and stays at 1 at page 1 |
| `FileList.Next` | client/src/components/Dashboard/FileShow.jsx:466 | Next never goes above totalPages, steps forward by one below it, and stays at totalPages at the end |
| `FileList.PagerStaysInRange` | client/src/components/Guest/GuestFilePreview.jsx:386-410 | from a page in [1, totalPages] both buttons stay in range, each is a no-op exactly at the bound where it is disabled, and each undoes the other |
| `FileList.ListedAsWritten` | client/src/components/Dashboard/FileShow.jsx:144-147 | the rendered rows, computed from the unclamped current page, are at most ten listed files |
| `FileList.StalePageHidesMatches` | client/src/components/Dashboard/FileShow.jsx:453 | for any eleven files of which only the last passes a query: Next moves to page 2, and after the query is applied the rendered page is empty although a file matches, with the pager hidden |
| `FileList.StalePageExample` | client/src/components/Dashboard/FileShow.jsx:131 | ten files named "a" and one named "b", searched for "b", meet the conditions of the stale-page lemma |
| `FileList.EffectivePage` | client/src/components/Dashboard/FileShow.jsx:143-147 | the clamped page lies in [1, totalPages] (1 for an empty list) and equals the current page whenever that is already valid |
| `FileList.Listed` | client/src/components/Guest/GuestFilePreview.jsx:97-101 | the rendered rows with the clamped page: at most ten listed files, never empty while some file matches, and identical to the code's rows whenever the current page is valid |
| `Icons.DashboardIcon` | client/src/components/Dashboard/FileShow.jsx:88-94 | image, video and audio icons exactly for the "image/", "video/", "audio/" prefixes, the PDF icon exactly for "application/pdf" |
| `Icons.DownloadIcon` | client/src/FileDownload.jsx:67-72 | image, video and audio icons exactly for the bare "image", "video", "audio" prefixes; never a PDF icon |
| `Icons.QueueIcon` | client/src/components/Dashboard/FileUpload/UploadPage.jsx:134-135 | image and video icons exactly for the "image" and "video" prefixes, otherwise generic |
| `Icons.DownloadIconAgreesWithDashboard` | client/src/FileDownload.jsx:67-72 | wherever the dashboard shows an image, video or audio icon, the share-link page shows the same one |
| `Dashboard.DisplayName` | client/src/components/Dashboard/FileShow.jsx:76-78 | names of at most 30 characters are unchanged, longer ones become their first 30 plus "..." (33 characters), and the result is a fixed point of the rule |
| `Dashboard.HandlePreview` | client/src/components/Dashboard/FileShow.jsx:50-57 | a protected file opens the prompt for that file and leaves the preview alone; an unprotected file goes straight to the preview; pending requests and the typed password are untouched |
| `Dashboard.VerifyRequestOf` | client/src/components/Dashboard/FileShow.jsx:61-63 | a verify request is sent exactly when a password is typed and a file awaits verification, and carries that file's id and the typed password |
| `Dashboard.VerifyClick` | client/src/components/Dashboard/FileShow.jsx:59-63 | an empty input is refused with "Please enter password" and a missing file with "Incorrect password", both without a request; otherwise the request goes out, remembering the file awaiting verification, and the prompt stays as it is |
| `Dashboard.VerifyReply` | client/src/components/Dashboard/FileShow.jsx:63-73 | the answered request leaves the pending list; acceptance previews the file remembered at the click and closes and clears the prompt; a refusal changes nothing else and shows the server's error or "Incorrect password" |
| `Dashboard.ProtectedPreviewNeedsVerification` | client/src/components/Dashboard/FileShow.jsx:50-73 | a single event that newly previews a protected file is an accepted reply to a pending request for that file |
| `Dashboard.ProtectedPreviewOnlyAfterAcceptance` | client/src/components/Dashboard/FileShow.jsx:50-73 | on every event sequence from the first render, a previewed protected file was the file of a pending request whose reply was accepted earlier in the sequence |
| `Dashboard.PreviewAfterVerification` | client/src/components/Dashboard/FileShow.jsx:50-73 | preview, type a password, Unlock, accepted reply: the file is previewed, the prompt is closed and cleared, and no request of this round stays pending |
| `Dashboard.AcceptedAfterCancelStillPreviews` | client/src/components/Dashboard/FileShow.jsx:553 | Cancel closes the prompt but does not withdraw the request: an accepted reply arriving afterwards still previews the file |
| `Dashboard.DirectDownload` | client/src/components/Dashboard/FileShow.jsx:335-353 | a signed URL is followed; a 401 or 403 opens the share link (short URL, else the file path); any other failure only reports "Download failed." |
| `Dashboard.CancelVerify` | client/src/components/Dashboard/FileShow.jsx:553 | Cancel closes the prompt, forgets the file to verify and clears the input; the preview and the requests already sent are left as they are |
| `Dashboard.ClosePreviewModal` | client/src/components/Dashboard/FileShow.jsx:483-521 | either close button of the preview clears it; the prompt, its input and the pending requests are left as they are |
| `Dashboard.Step` | client/src/components/Dashboard/FileShow.jsx:477-562 | an event the page does not offer changes nothing; a row cannot be previewed while the preview or the prompt covers the table; typing into the prompt changes only its input; Unlock, replies, Cancel and Close go to their handlers |
| `Dashboard.StartDirectDownload` | client/src/components/Dashboard/FileShow.jsx:336 | clicking a row's download button disables that row's button and no other |
| `Dashboard.FinishDirectDownload` | client/src/components/Dashboard/FileShow.jsx:350-354 | when the request settles, whatever the reply, that row's button is enabled again and no other row changes |
| `Dashboard.OverlappingDownloads` | client/src/components/Dashboard/FileShow.jsx:336-354 | with two rows downloading at once, the first reply re-enables only its own row; the other stays disabled |
| `Dashboard.DownloadRoundTrip` | client/src/components/Dashboard/FileShow.jsx:336-354 | a row's button is disabled while its request is in flight and enabled after it, whatever the reply; other rows are unaffected |
| `Guest.DisplayName` | client/src/components/Guest/GuestFilePreview.jsx:29-32 | names of at most 20 characters are unchanged, longer ones become their first 20 plus "..." (23 characters), and the result is a fixed point of the rule |
| `Guest.DeleteFile` | client/src/components/Guest/GuestFilePreview.jsx:58-74 | an empty id is refused; otherwise the result is an order-preserving subsequence with no file carrying the id and every file not carrying it, as often as it occurred |
| `Guest.DeleteIdempotent` | client/src/components/Guest/GuestFilePreview.jsx:64 | deleting the same id twice leaves the same list as deleting it once |
| `Guest.DeleteAbsentId` | client/src/components/Guest/GuestFilePreview.jsx:64 | deleting an id no file carries leaves the list unchanged |
| `Guest.DeleteRemovesExactlyMatches` | client/src/components/Guest/GuestFilePreview.jsx:64 | the kept files plus the files carrying the id make up the old list, so exactly the carriers disappear |
| `Guest.DeleteEmptiesLastPage` | client/src/components/Guest/GuestFilePreview.jsx:97-101 | for eleven files with the last one's id unique, Next moves to page 2, and deleting that file leaves the first ten with page 2 empty and the pager hidden |
| `Guest.DeleteExample` | client/src/components/Guest/GuestFilePreview.jsx:58-74 | the eleven example files carry distinct ids, so they meet the conditions of the delete lemma |
| `Upload.Enqueue` | client/src/components/Dashboard/FileUpload/UploadPage.jsx:24-28 | the old queue is kept as a prefix, followed by an order-preserving subsequence of the incoming files holding every file of at most 10 MiB as often as it was dropped, and nothing larger |
| `Upload.HandleFiles` | client/src/components/Dashboard/FileUpload/UploadPage.jsx:23-30 | the queue grows as `Enqueue` states; the skip warning fires iff some file was too large, the "added" toast iff some file fit, with the number added |
| `Upload.TwoBatchesAsOne` | client/src/components/Dashboard/FileUpload/UploadPage.jsx:28 | adding two batches one after the other queues the same files as adding them together |
| `Upload.RemoveFile` | client/src/components/Dashboard/FileUpload/UploadPage.jsx:37-39 | a valid index removes exactly that element, the others keep their order, the length drops by one and the multiset loses just that file; any other index changes nothing |
| `Upload.ExpiryHours` | client/src/components/Dashboard/FileUpload/UploadPage.jsx:56 | the hours sent are the least integer h with h·3,600,000 ≥ expiry − now, at least 1 for a future date |
| `Upload.HandleUpload` | client/src/components/Dashboard/FileUpload/UploadPage.jsx:41-61 | the demo account is refused first, then an empty queue, and neither builds a request; a sent form carries the queue, the user id (`_id`, else `id`), both flags always, the expiry hours only when expiry is on and a date is set, the password only when protection is on and it is non-empty |
| `Upload.FinishUpload` | client/src/components/Dashboard/FileUpload/UploadPage.jsx:63-73 | success empties the queue, failure keeps it; progress returns to 0 either way; the toast is "Files uploaded successfully!" on success and the server's error or "Upload failed" on failure |
| `DownloadPage.FetchDetails` | client/src/FileDownload.jsx:18-34 | a successful resolve stores the metadata, ends loading and raises the prompt iff the file is protected; a failed one ends loading with the server's message or "Invalid or expired link." and leaves the metadata as it was |
| `DownloadPage.SubmitPassword` | client/src/FileDownload.jsx:36-47 | the reply to one pending check: acceptance hides the prompt and clears the error; rejection keeps the prompt as it is and sets the server's error or "Incorrect password"; the metadata is never touched |
| `DownloadPage.StartDownload` | client/src/FileDownload.jsx:49-54 | the Download click disables the button and builds the request from the resolved file id and the password typed so far, with no request when there is no metadata; nothing else changes |
| `DownloadPage.Step` | client/src/FileDownload.jsx:150-213 | an event the page does not offer changes nothing; a disabled Download button does nothing; typing changes only the password; Unlock sends one more check whatever was typed; the replies and the Download click go to their handlers |
| `DownloadPage.DownloadRequestOf` | client/src/FileDownload.jsx:52-54 | a download request exists exactly when metadata exists, targets the resolved file id and re-sends the entered password |
| `DownloadPage.FinishDownload` | client/src/FileDownload.jsx:49-65 | `downloading` returns to false and the held request is released; the typed password, the pending checks, the metadata and the prompt are untouched; the browser is sent to the signed URL exactly when a request was built and granted; otherwise the error is the server's refusal message when there is one and "Download failed. Please try again." in every other case |
| `DownloadPage.ViewOf` | client/src/FileDownload.jsx:74-93 | spinner exactly while loading; the full-page error exactly when an error is set and there is no metadata; otherwise the prompt or the download form, each showing the error inline |
| `DownloadPage.ReachableIsConsistent` | client/src/FileDownload.jsx:18-65 | in every reachable state: loading means nothing else is set, after loading there is metadata or an error, and the prompt, a pending password check or a download in flight imply metadata |
| `DownloadPage.ReachableViews` | client/src/FileDownload.jsx:150-213 | in every reachable state the forms are shown over real metadata, and while a download is in flight the request built at its click is the one the page would build now: neither the file nor the password has changed since |
| `DownloadPage.ProtectedDownloadNeedsAcceptedPassword` | client/src/FileDownload.jsx:150-213 | the download form of a protected file is only reached after an accepted password reply that the page processed while a check was pending |
| `DownloadPage.LateRejectionShowsUnderDownload` | client/src/FileDownload.jsx:36-47 | two Unlock clicks answered accepted then rejected leave the download form showing "Incorrect password" under the button |
| `Welcome.Greeting` | client/src/components/Dashboard/WelcomeSection.jsx:4-10 | hours 5–11 give "Good morning", 12–16 "Good afternoon", 17–20 "Good evening", all others "Good night", each as an if-and-only-if |
| `Welcome.DisplayName` | client/src/components/Dashboard/WelcomeSection.jsx:14 | the full name when present, otherwise "User"; never empty |
| `Welcome.DisplayEmail` | client/src/components/Dashboard/WelcomeSection.jsx:15 | the e-mail when present, otherwise "No email linked"; never empty |
| `Welcome.DisplayUsername` | client/src/components/Dashboard/WelcomeSection.jsx:16 | non-empty exactly when a username is present, and then "@" followed by it |

## Left out

- Server-side share-link resolution, password hashing and comparison, expiry enforcement, signed URLs and download counting: that code is not part of this model.
- Network calls (axios, `fetch` of QR codes), Redux thunks and dispatch, `localStorage`, the clipboard, DOM manipulation and `window.location`: I/O and framework plumbing. Request outcomes are inputs; navigation is an output value.
- Size strings built with `toFixed` (file tables and share page): floating-point formatting.
- `date-fns` (`differenceInDays`, `formatDistanceToNow*`) and `new Date()`: replaced by integers supplied per file or per call.
- Share-URL construction in `handleShare` and the QR download: string concatenation around `encodeURIComponent`.
- Theme toggles, routing and pure rendering components (headers, sidebar, stats grid, profile, home and guest home pages), and the login and signup forms.
- The avatar letter in the welcome banner (`displayName.charAt(0).toUpperCase()`): rendering only.
- A `null` file list is not modelled. The dashboard table treats one as empty (`filteredFiles?.length || 0`, client/src/components/Dashboard/FileShow.jsx:130, 143, 219). The guest table would throw on one at client/src/components/Guest/GuestFilePreview.jsx:132, but client/src/components/Guest/GuestHomePage.jsx:8 and 11 always pass it an array, so that case cannot arise.
- Upload progress reported while the request runs: only its reset to 0 afterwards is modelled.
- The order in which replies arrive is free in the model (any pending dashboard request may be answered next), but each reply is one atomic step; interleavings inside a handler are not modelled.
- FileList.Filtered: lower-casing maps only the ASCII letters A–Z, whereas JavaScript's `toLowerCase` also folds other scripts.
- Dashboard.DisplayName: lengths count Dafny characters, whereas JavaScript counts UTF-16 code units, so names with characters outside the Basic Multilingual Plane may be cut at a different place.
- Guest.DisplayName: the same UTF-16 caveat as the dashboard's display name.
- Upload.HandleUpload: a date string that does not parse (which JavaScript turns into `NaN` hours) is not modelled; the date field is either empty or an exact millisecond value.
- Upload.ExpiryHours: computed exactly on integers, whereas JavaScript divides in floating point; the two agree for any realistic date range.

## Findings

| source | as written | input that shows it | evidently intended | confidence | as-written member | corrected member |
|---|---|---|---|---|---|---|
| client/src/components/Dashboard/FileShow.jsx:143-147 | `currentPage` is never reset or clamped when the search box or a filter shrinks the list, and the pager is only drawn when `totalPages > 1` | 11 files, click Next to reach page 2, then search for a name only one file has: page 2 of a one-item list is empty and no pager is drawn | the rendered page stays within [1, totalPages], so a matching file is always visible | medium; not executed | `FileList.StalePageHidesMatches` | `FileList.Listed` |
| client/src/components/Guest/GuestFilePreview.jsx:97-101 | the same unclamped `currentPage`; deleting rows (lines 58-74) shrinks the list as well | 11 files with distinct ids, click Next to reach page 2, then delete the only file on it: page 2 of a ten-item list is empty and no pager is drawn | the rendered page stays within [1, totalPages] | medium; not executed | `Guest.DeleteEmptiesLastPage` | `FileList.Listed` |

=== FILE: dashboard.dfy ===
/** The signed-in owner's file table: name display, the preview / password-prompt flow and
    the per-row direct download button. Filtering and paging live in `FileList`. */
module Dashboard {
  import opened Options
  import opened Text
  import opened FileList

  const NameLimit: nat := 30

  /** `sortFileName`: names longer than 30 characters are shown as their first 30 plus "...". */
  function DisplayName(name: string): (r: string)
    ensures |name| <= NameLimit ==> r == name
    ensures |name| > NameLimit ==> |r| == NameLimit + 3 && r == name[..NameLimit] + "..."
    ensures Truncate(r, NameLimit) == r
  {
    TruncateIdempotent(name, NameLimit);
    Truncate(name, NameLimit)
  }

  /** The preview modal, the password prompt that guards it, and the verify requests still
      awaiting a reply. Each pending request remembers the file that was awaiting
      verification when Unlock was clicked, which is the file its reply will preview. */
  datatype PreviewState = PreviewState(
    previewFile: Option<SharedFile>,
    fileToVerify: Option<SharedFile>,
    passwordPrompt: bool,
    passwordInput: string,
    pending: seq<SharedFile>)

  /** The state when the table first renders. */
  const Closed := PreviewState(None, None, false, "", [])

  /** `handlePreview`: a protected file opens the password prompt instead of the preview. */
  function HandlePreview(st: PreviewState, f: SharedFile): (r: PreviewState)
    ensures f.isPassword ==> r.passwordPrompt && r.fileToVerify == Some(f) && r.previewFile == st.previewFile
    ensures !f.isPassword ==> r.previewFile == Some(f)
    ensures !f.isPassword ==> r.passwordPrompt == st.passwordPrompt && r.fileToVerify == st.fileToVerify
    ensures r.passwordInput == st.passwordInput && r.pending == st.pending
  {
    if f.isPassword then st.(fileToVerify := Some(f), passwordPrompt := true)
    else st.(previewFile := Some(f))
  }

  /** What the server answered to `verifyFilePassword`. `serverError` is the response's
      `error` field, empty when it had none. */
  datatype VerifyOutcome = Verified | Refused(serverError: string)

  /** The request `handleVerifySubmit` sends, if it gets that far. */
  datatype VerifyRequest = VerifyRequest(fileId: string, password: string)

  function VerifyRequestOf(st: PreviewState): (req: Option<VerifyRequest>)
    ensures req.Some? <==> st.passwordInput != "" && st.fileToVerify.Some?
    ensures req.Some? ==> req.value == VerifyRequest(st.fileToVerify.value.id, st.passwordInput)
  {
    if st.passwordInput == "" then None
    else match st.fileToVerify
      case None => None
      case Some(f) => Some(VerifyRequest(f.id, st.passwordInput))
  }

  /** The new state and the error toast, if any. */
  datatype VerifyResult = VerifyResult(state: PreviewState, toast: Option<string>)

  /** The synchronous part of `handleVerifySubmit`, up to the `await`. An empty input is
      refused without a request; a missing file makes the request expression throw, which the
      handler reports like a refusal. Otherwise the request goes out and the handler waits,
      holding on to the file being verified; the prompt stays open meanwhile. */
  function VerifyClick(st: PreviewState): (r: VerifyResult)
    ensures st.passwordInput == "" ==> r == VerifyResult(st, Some("Please enter password"))
    ensures VerifyRequestOf(st).None? ==> r.state == st && r.toast.Some? && r.toast.value != ""
    ensures st.passwordInput != "" && st.fileToVerify.None? ==> r.toast == Some("Incorrect password")
    ensures VerifyRequestOf(st).Some? ==> r.toast.None? && r.state.pending == st.pending + [st.fileToVerify.value]
    ensures r.state.previewFile == st.previewFile && r.state.fileToVerify == st.fileToVerify
    ensures r.state.passwordPrompt == st.passwordPrompt && r.state.passwordInput == st.passwordInput
  {
    if st.passwordInput == "" then VerifyResult(st, Some("Please enter password"))
    else match st.fileToVerify
      case None => VerifyResult(st, Some("Incorrect password"))
      case Some(f) => VerifyResult(st.(pending := st.pending + [f]), None)
  }

  /** The rest of `handleVerifySubmit`, once the reply to pending request `k` arrives. An
      accepted password previews the file held since the click and closes and clears the
      prompt, whatever happened to the prompt in between; a refusal only raises a toast. */
  function VerifyReply(st: PreviewState, k: nat, outcome: VerifyOutcome): (r: VerifyResult)
    requires k < |st.pending|
    ensures r.state.pending == st.pending[..k] + st.pending[k + 1..]
    ensures outcome.Verified? ==> r.toast.None? && r.state.previewFile == Some(st.pending[k])
    ensures outcome.Verified? ==>
              !r.state.passwordPrompt && r.state.fileToVerify.None? && r.state.passwordInput == ""
    ensures outcome.Refused? ==> r.toast.Some? && r.toast.value != ""
    ensures outcome.Refused? ==>
              r.toast == Some(if outcome.serverError != "" then outcome.serverError else "Incorrect password")
    ensures outcome.Refused? ==> r.state.previewFile == st.previewFile && r.state.fileToVerify == st.fileToVerify
    ensures outcome.Refused? ==>
              r.state.passwordPrompt == st.passwordPrompt && r.state.passwordInput == st.passwordInput
  {
    var rest := st.pending[..k] + st.pending[k + 1..];
    match outcome
    case Verified => VerifyResult(PreviewState(Some(st.pending[k]), None, false, "", rest), None)
    case Refused(e) => VerifyResult(st.(pending := rest), Some(if e != "" then e else "Incorrect password"))
  }

  /** Everything that can happen to the preview and the prompt. */
  datatype PreviewEvent =
    | Preview(file: SharedFile)
    | TypePassword(text: string)
    | UnlockClicked
    | VerifyReplied(k: nat, outcome: VerifyOutcome)
    | CancelPrompt
    | ClosePreview

  /** Both modals cover the table, so a row can only be previewed while neither is open; the
      prompt's controls exist only while it is open; a reply needs a pending request. */
  predicate Enabled(st: PreviewState, e: PreviewEvent) {
    match e
    case Preview(_) => !st.passwordPrompt && st.previewFile.None?
    case TypePassword(_) => st.passwordPrompt
    case UnlockClicked => st.passwordPrompt
    case VerifyReplied(k, _) => k < |st.pending|
    case CancelPrompt => st.passwordPrompt
    case ClosePreview => st.previewFile.Some?
  }

  /** The prompt's Cancel button closes and clears the prompt. A request already sent is not
      withdrawn, and the preview is left alone. */
  function CancelVerify(st: PreviewState): (r: PreviewState)
    ensures !r.passwordPrompt && r.fileToVerify.None? && r.passwordInput == ""
    ensures r.previewFile == st.previewFile && r.pending == st.pending
  {
    st.(passwordPrompt := false, fileToVerify := None, passwordInput := "")
  }

  /** Either close button of the preview (header or footer) clears the preview; the prompt
      and the pending requests are left alone. */
  function ClosePreviewModal(st: PreviewState): (r: PreviewState)
    ensures r.previewFile.None?
    ensures r.passwordPrompt == st.passwordPrompt && r.fileToVerify == st.fileToVerify
    ensures r.passwordInput == st.passwordInput && r.pending == st.pending
  {
    st.(previewFile := None)
  }

  /** One event: ignored when the page does not offer it, otherwise handled by the matching
      handler. Typing into the prompt changes the input and nothing else. */
  function Step(st: PreviewState, e: PreviewEvent): (r: PreviewState)
    ensures !Enabled(st, e) ==> r == st
    ensures e.Preview? && (st.passwordPrompt || st.previewFile.Some?) ==> r == st
    ensures e.Preview? && Enabled(st, e) ==> r == HandlePreview(st, e.file)
    ensures e.TypePassword? && st.passwordPrompt ==> r == st.(passwordInput := e.text)
    ensures e.UnlockClicked? && st.passwordPrompt ==> r == VerifyClick(st).state
    ensures e.VerifyReplied? && e.k < |st.pending| ==> r == VerifyReply(st, e.k, e.outcome).state
    ensures e.CancelPrompt? && st.passwordPrompt ==> r == CancelVerify(st)
    ensures e.ClosePreview? && st.previewFile.Some? ==> r == ClosePreviewModal(st)
  {
    if !Enabled(st, e) then st
    else match e
      case Preview(f) => HandlePreview(st, f)
      case TypePassword(t) => st.(passwordInput := t)
      case UnlockClicked => VerifyClick(st).state
      case VerifyReplied(k, o) => VerifyReply(st, k, o).state
      case CancelPrompt => CancelVerify(st)
      case ClosePreview => ClosePreviewModal(st)
  }

  /** The state after a sequence of events, starting from the first render. */
  function Reach(events: seq<PreviewEvent>): PreviewState
    decreases |events|
  {
    if |events| == 0 then Closed
    else Step(Reach(events[..|events| - 1]), events[|events| - 1])
  }

  /** A single event that newly previews a protected file is an accepted reply to a request
      sent for that very file. */
  lemma ProtectedPreviewNeedsVerification(st: PreviewState, e: PreviewEvent, f: SharedFile)
    requires f.isPassword
    requires st.previewFile != Some(f)
    requires Step(st, e).previewFile == Some(f)
    ensures e.VerifyReplied? && e.outcome.Verified? && e.k < |st.pending| && st.pending[e.k] == f
  {
  }

  /** A protected file is only ever previewed after the server accepted a verify request sent
      for that file: some earlier event was such a reply, processed while it was pending. */
  lemma {:induction false} ProtectedPreviewOnlyAfterAcceptance(events: seq<PreviewEvent>, f: SharedFile)
    requires f.isPassword && Reach(events).previewFile == Some(f)
    ensures exists i :: 0 <= i < |events| && events[i].VerifyReplied? && events[i].outcome.Verified?
              && Enabled(Reach(events[..i]), events[i]) && Reach(events[..i]).pending[events[i].k] == f
  {
    var n := |events|;
    var prefix := events[..n - 1];
    assert Reach(events) == Step(Reach(prefix), events[n - 1]);
    if Reach(prefix).previewFile == Some(f) {
      ProtectedPreviewOnlyAfterAcceptance(prefix, f);
      var i :| 0 <= i < |prefix| && prefix[i].VerifyReplied? && prefix[i].outcome.Verified?
               && Enabled(Reach(prefix[..i]), prefix[i]) && Reach(prefix[..i]).pending[prefix[i].k] == f;
      assert events[..i] == prefix[..i] && events[i] == prefix[i];
    } else {
      ProtectedPreviewNeedsVerification(Reach(prefix), events[n - 1], f);
      assert events[..n - 1] == prefix;
    }
  }

  /** Asking to preview a protected file, typing a password, clicking Unlock and having the
      reply accept it shows exactly that file and closes and clears the prompt. */
  lemma PreviewAfterVerification(st: PreviewState, f: SharedFile, password: string)
    requires !st.passwordPrompt && st.previewFile.None?
    requires f.isPassword && password != ""
    ensures var s := Step(Step(Step(Step(st, Preview(f)), TypePassword(password)), UnlockClicked),
                          VerifyReplied(|st.pending|, Verified));
            s.previewFile == Some(f) && !s.passwordPrompt && s.fileToVerify == None && s.passwordInput == ""
            && s.pending == st.pending
  {
    var s2 := Step(Step(st, Preview(f)), TypePassword(password));
    assert VerifyRequestOf(s2) == Some(VerifyRequest(f.id, password));
    var s3 := Step(s2, UnlockClicked);
    assert s3.pending == st.pending + [f];
    assert s3.pending[..|st.pending|] + s3.pending[|st.pending| + 1..] == st.pending;
  }

  /** Cancelling the prompt does not withdraw a request already sent: if the reply accepts the
      password, the file is previewed after the prompt was closed. */
  lemma AcceptedAfterCancelStillPreviews(st: PreviewState, f: SharedFile, password: string)
    requires !st.passwordPrompt && st.previewFile.None?
    requires f.isPassword && password != ""
    ensures var s3 := Step(Step(Step(Step(st, Preview(f)), TypePassword(password)), UnlockClicked), CancelPrompt);
            && !s3.passwordPrompt && s3.previewFile.None?
            && Step(s3, VerifyReplied(|st.pending|, Verified)).previewFile == Some(f)
  {
    var s2 := Step(Step(st, Preview(f)), TypePassword(password));
    assert VerifyRequestOf(s2) == Some(VerifyRequest(f.id, password));
  }

  /** The server's reply to `POST files/download/{id}` from a table row. */
  datatype DownloadReply = SignedUrl(downloadUrl: string) | HttpError(status: int) | NoResponse

  /** What the row button does with that reply. */
  datatype DirectDownloadEffect =
    | Navigate(url: string)
    | OpenShareLink(target: string)   // with the toast "Password protected. Redirecting..."
    | DownloadFailed                  // with the toast "Download failed."

  function DirectDownload(f: SharedFile, reply: DownloadReply): (eff: DirectDownloadEffect)
    ensures reply.SignedUrl? <==> eff.Navigate?
    ensures eff.Navigate? ==> eff.url == reply.downloadUrl
    ensures eff.OpenShareLink? <==> reply.HttpError? && reply.status in {401, 403}
    ensures eff.OpenShareLink? ==> eff.target == (if f.shortUrl != "" then f.shortUrl else f.path)
  {
    match reply
    case SignedUrl(u) => Navigate(u)
    case HttpError(code) =>
      if code == 401 || code == 403 then OpenShareLink(if f.shortUrl != "" then f.shortUrl else f.path)
      else DownloadFailed
    case NoResponse => DownloadFailed
  }

  /** `downloadingFiles`: which rows have a request in flight (their button is disabled). */
  type InFlight = map<string, bool>

  predicate ButtonDisabled(flags: InFlight, id: string) {
    id in flags && flags[id]
  }

  /** A row's download button sets that row's flag before its request goes out. */
  function StartDirectDownload(flags: InFlight, id: string): (r: InFlight)
    ensures ButtonDisabled(r, id)
    ensures forall other :: other != id ==> (ButtonDisabled(r, other) <==> ButtonDisabled(flags, other))
  {
    flags[id := true]
  }

  /** The `finally` of that request clears the row's flag, whatever the reply. */
  function FinishDirectDownload(flags: InFlight, id: string): (r: InFlight)
    ensures !ButtonDisabled(r, id)
    ensures forall other :: other != id ==> (ButtonDisabled(r, other) <==> ButtonDisabled(flags, other))
  {
    flags[id := false]
  }

  /** One button's whole round trip: disabled in flight, enabled after, other rows untouched
      throughout. */
  function DownloadRoundTrip(flags: InFlight, id: string): (r: (InFlight, InFlight))
    ensures ButtonDisabled(r.0, id) && !ButtonDisabled(r.1, id)
    ensures forall other :: other != id ==> (ButtonDisabled(r.0, other) <==> ButtonDisabled(flags, other))
    ensures forall other :: other != id ==> (ButtonDisabled(r.1, other) <==> ButtonDisabled(flags, other))
  {
    var during := StartDirectDownload(flags, id);
    (during, FinishDirectDownload(during, id))
  }

  /** Two rows downloading at once: when the first finishes, only its button is enabled again;
      the second stays disabled until its own reply. */
  lemma OverlappingDownloads(flags: InFlight, a: string, b: string)
    requires a != b
    ensures var both := StartDirectDownload(StartDirectDownload(flags, a), b);
            && ButtonDisabled(both, a) && ButtonDisabled(both, b)
            && !ButtonDisabled(FinishDirectDownload(both, a), a)
            && ButtonDisabled(FinishDirectDownload(both, a), b)
  {
  }
}

=== FILE: download_page.dfy ===
/** The public share-link page (`/f/{code}`): resolve the code, ask for the password when the
    file is protected, then request a signed download URL. Each server reply is an input. */
module DownloadPage {
  import opened Options

  /** The public metadata returned by `resolveShareLink`. */
  datatype FileMeta = FileMeta(fileId: string, name: string, mimeType: string, isPasswordProtected: bool)

  /** The component state. `error` is "" when no error is set; `verifying` counts the
      password checks sent and not yet answered; `sent` is the download request built at the
      last Download click, held by `handleDownload` until its reply (`None` when the request
      expression threw, or when no download is in flight). */
  datatype PageState = PageState(
    loading: bool,
    fileData: Option<FileMeta>,
    showPrompt: bool,
    error: string,
    downloading: bool,
    password: string,
    verifying: nat,
    sent: Option<DownloadRequest>)

  /** The state on first render: a spinner while the code is resolved. */
  const Initial := PageState(true, None, false, "", false, "", 0, None)

  const ResolveFallback := "Invalid or expired link."
  const PasswordFallback := "Incorrect password"
  const DownloadFallback := "Download failed. Please try again."

  /** A server error message, or the fallback when the reply carried none. */
  function ErrorText(serverError: string, fallback: string): (e: string)
    requires fallback != ""
    ensures e != ""
    ensures serverError != "" ==> e == serverError
    ensures serverError == "" ==> e == fallback
  {
    if serverError != "" then serverError else fallback
  }

  /** What `GET files/resolveShareLink/{code}` came back with. */
  datatype ResolveOutcome = Resolved(meta: FileMeta) | ResolveFailed(serverError: string)

  /** `fetchDetails`: stores the metadata and raises the prompt for a protected file, or
      records the error. Loading ends either way. */
  function FetchDetails(s: PageState, outcome: ResolveOutcome): (r: PageState)
    ensures !r.loading && r.downloading == s.downloading && r.password == s.password && r.verifying == s.verifying
    ensures outcome.Resolved? ==> r.fileData == Some(outcome.meta) && r.error == s.error
    ensures outcome.Resolved? ==> (r.showPrompt <==> outcome.meta.isPasswordProtected || s.showPrompt)
    ensures outcome.ResolveFailed? ==> r.fileData == s.fileData && r.showPrompt == s.showPrompt
    ensures outcome.ResolveFailed? ==> r.error != "" && (outcome.serverError != "" ==> r.error == outcome.serverError)
    ensures outcome.ResolveFailed? ==>
              r.error == (if outcome.serverError != "" then outcome.serverError else ResolveFallback)
  {
    match outcome
    case Resolved(meta) =>
      s.(fileData := Some(meta), showPrompt := s.showPrompt || meta.isPasswordProtected, loading := false)
    case ResolveFailed(e) =>
      s.(error := ErrorText(e, ResolveFallback), loading := false)
  }

  /** What `POST files/verifyFilePassword` came back with. */
  datatype VerifyOutcome = Accepted | Rejected(serverError: string)

  /** `handlePasswordSubmit` once the reply to one of the pending checks arrives: success
      hides the prompt and clears the error; failure keeps the prompt as it is and shows an
      error, under the download button if an earlier check already hid the prompt. The
      metadata is never touched. */
  function SubmitPassword(s: PageState, outcome: VerifyOutcome): (r: PageState)
    requires s.verifying > 0
    ensures r.verifying == s.verifying - 1
    ensures r.fileData == s.fileData && r.loading == s.loading && r.password == s.password
    ensures r.downloading == s.downloading
    ensures outcome.Accepted? ==> !r.showPrompt && r.error == ""
    ensures outcome.Rejected? ==> r.showPrompt == s.showPrompt && r.error != ""
    ensures outcome.Rejected? ==> r.error == (if outcome.serverError != "" then outcome.serverError else PasswordFallback)
  {
    match outcome
    case Accepted => s.(showPrompt := false, error := "", verifying := s.verifying - 1)
    case Rejected(e) => s.(error := ErrorText(e, PasswordFallback), verifying := s.verifying - 1)
  }

  /** The body of `POST files/download/{fileId}`: the entered password is sent again. */
  datatype DownloadRequest = DownloadRequest(fileId: string, password: string)

  /** The request `handleDownload` sends; without metadata the request expression throws. */
  function DownloadRequestOf(s: PageState): (req: Option<DownloadRequest>)
    ensures req.Some? <==> s.fileData.Some?
    ensures req.Some? ==> req.value.fileId == s.fileData.value.fileId && req.value.password == s.password
  {
    match s.fileData
    case None => None
    case Some(meta) => Some(DownloadRequest(meta.fileId, s.password))
  }

  /** Clicking Download disables the button and builds the request at once from the resolved
      file id and the password typed so far; nothing else changes. */
  function StartDownload(s: PageState): (r: PageState)
    ensures r.downloading
    ensures r.sent.Some? <==> s.fileData.Some?
    ensures r.sent.Some? ==> r.sent.value == DownloadRequest(s.fileData.value.fileId, s.password)
    ensures r.(downloading := s.downloading, sent := s.sent) == s
  {
    s.(downloading := true, sent := DownloadRequestOf(s))
  }

  /** What the download request came back with. */
  datatype DownloadOutcome = Granted(downloadUrl: string) | Denied(serverError: string)

  /** The state after the reply, and where the browser is sent. */
  datatype DownloadResult = DownloadResult(state: PageState, navigateTo: Option<string>)

  /** `handleDownload` once its request is settled: on success the browser goes to the signed
      URL; on failure, or when no request could be built, an error is shown. The button is
      enabled again either way. */
  function FinishDownload(s: PageState, outcome: DownloadOutcome): (r: DownloadResult)
    ensures !r.state.downloading && r.state.sent.None?
    ensures r.state.fileData == s.fileData && r.state.showPrompt == s.showPrompt && r.state.loading == s.loading
    ensures r.state.password == s.password && r.state.verifying == s.verifying
    ensures r.navigateTo.Some? <==> DownloadRequestOf(s).Some? && outcome.Granted?
    ensures r.navigateTo.Some? ==> r.navigateTo.value == outcome.downloadUrl && r.state.error == s.error
    ensures r.navigateTo.None? ==> r.state.error != ""
    ensures r.navigateTo.None? ==>
              r.state.error == (if s.fileData.Some? && outcome.Denied? && outcome.serverError != ""
                                then outcome.serverError else DownloadFallback)
  {
    if s.fileData.Some? && outcome.Granted? then
      DownloadResult(s.(downloading := false, sent := None), Some(outcome.downloadUrl))
    else
      var e := if s.fileData.Some? then outcome.serverError else "";
      DownloadResult(s.(downloading := false, sent := None, error := ErrorText(e, DownloadFallback)), None)
  }

  /** What the page renders. */
  datatype View =
    | Spinner
    | ErrorPage(message: string)
    | PasswordForm(inlineError: string)
    | DownloadForm(meta: Option<FileMeta>, inlineError: string, busy: bool)

  /** The full-page error is shown only while there is no metadata; once metadata exists,
      errors are shown inline under the prompt or the download button. */
  function ViewOf(s: PageState): (v: View)
    ensures v.Spinner? <==> s.loading
    ensures v.ErrorPage? <==> !s.loading && s.error != "" && s.fileData.None?
    ensures v.ErrorPage? ==> v.message == s.error
    ensures v.PasswordForm? <==> !s.loading && !v.ErrorPage? && s.showPrompt
    ensures v.PasswordForm? ==> v.inlineError == s.error
    ensures v.DownloadForm? ==> v.meta == s.fileData && v.inlineError == s.error && v.busy == s.downloading
  {
    if s.loading then Spinner
    else if s.error != "" && s.fileData.None? then ErrorPage(s.error)
    else if s.showPrompt then PasswordForm(s.error)
    else DownloadForm(s.fileData, s.error, s.downloading)
  }

  /** Everything that can happen on the page. */
  datatype Event =
    | ResolveDone(resolve: ResolveOutcome)
    | TypePassword(text: string)
    | PasswordClicked
    | PasswordDone(verify: VerifyOutcome)
    | DownloadClicked
    | DownloadDone(download: DownloadOutcome)

  /** An event can only occur when the page offers it: the resolve reply while loading, typing
      and clicking Unlock while the prompt is shown, a password reply while a check is
      pending, clicking while the download button is enabled, and the download reply while a
      download is in flight. */
  predicate Enabled(s: PageState, e: Event) {
    match e
    case ResolveDone(_) => s.loading
    case TypePassword(_) => ViewOf(s).PasswordForm?
    case PasswordClicked => ViewOf(s).PasswordForm?
    case PasswordDone(_) => s.verifying > 0
    case DownloadClicked => ViewOf(s).DownloadForm? && !s.downloading
    case DownloadDone(_) => s.downloading
  }

  /** One event: ignored when the page does not offer it, otherwise handled by the matching
      handler. Typing changes the password and nothing else; Unlock sends one more check,
      whatever was typed; a disabled Download button does nothing. */
  function Step(s: PageState, e: Event): (r: PageState)
    ensures !Enabled(s, e) ==> r == s
    ensures e.DownloadClicked? && s.downloading ==> r == s
    ensures e.ResolveDone? && s.loading ==> r == FetchDetails(s, e.resolve)
    ensures e.TypePassword? && ViewOf(s).PasswordForm? ==> r == s.(password := e.text)
    ensures e.PasswordClicked? && ViewOf(s).PasswordForm? ==> r == s.(verifying := s.verifying + 1)
    ensures e.PasswordDone? && s.verifying > 0 ==> r == SubmitPassword(s, e.verify)
    ensures e.DownloadClicked? && ViewOf(s).DownloadForm? && !s.downloading ==> r == StartDownload(s)
    ensures e.DownloadDone? && s.downloading ==> r == FinishDownload(s, e.download).state
  {
    if !Enabled(s, e) then s
    else match e
      case ResolveDone(o) => FetchDetails(s, o)
      case TypePassword(t) => s.(password := t)
      case PasswordClicked => s.(verifying := s.verifying + 1)
      case PasswordDone(o) => SubmitPassword(s, o)
      case DownloadClicked => StartDownload(s)
      case DownloadDone(o) => FinishDownload(s, o).state
  }

  /** The state after a sequence of events, starting from the first render. */
  function Reach(events: seq<Event>): PageState
    decreases |events|
  {
    if |events| == 0 then Initial
    else Step(Reach(events[..|events| - 1]), events[|events| - 1])
  }

  /** What holds in every state the page can reach. */
  predicate Consistent(s: PageState) {
    && (s.loading ==> s.fileData.None? && !s.showPrompt && !s.downloading && s.error == "" && s.verifying == 0)
    && (!s.loading ==> s.fileData.Some? || s.error != "")
    && (s.showPrompt ==> s.fileData.Some?)
    && (s.downloading ==> s.fileData.Some? && !s.showPrompt && s.sent == DownloadRequestOf(s))
    && (s.verifying > 0 ==> s.fileData.Some?)
  }

  lemma {:induction false} ReachableIsConsistent(events: seq<Event>)
    ensures Consistent(Reach(events))
  {
    if |events| > 0 {
      ReachableIsConsistent(events[..|events| - 1]);
    }
  }

  /** After loading, the page shows either the error page or a form over real metadata, and
      while a download is in flight the request built at its click is still the one the page
      would build: neither the file nor the password changed in between. */
  lemma ReachableViews(events: seq<Event>)
    ensures var s := Reach(events);
            var v := ViewOf(s);
            && (v.DownloadForm? ==> v.meta.Some?)
            && (v.PasswordForm? ==> s.fileData.Some?)
            && (s.downloading ==> s.sent == DownloadRequestOf(s) && s.sent.Some?)
  {
    ReachableIsConsistent(events);
  }

  /** The download button of a protected file is only reached after the server accepted a
      password on this page: some earlier event was an accepted reply that the page processed. */
  lemma {:induction false} ProtectedDownloadNeedsAcceptedPassword(events: seq<Event>)
    requires var s := Reach(events);
             s.fileData.Some? && s.fileData.value.isPasswordProtected && ViewOf(s).DownloadForm?
    ensures exists i :: 0 <= i < |events| && events[i] == PasswordDone(Accepted) && Enabled(Reach(events[..i]), events[i])
  {
    var n := |events|;
    var prefix := events[..n - 1];
    var prev := Reach(prefix);
    var e := events[n - 1];
    ReachableIsConsistent(prefix);
    if e == PasswordDone(Accepted) && Enabled(prev, e) {
      assert events[..n - 1] == prefix;
    } else {
      assert prev.fileData.Some? && prev.fileData.value.isPasswordProtected && ViewOf(prev).DownloadForm?;
      ProtectedDownloadNeedsAcceptedPassword(prefix);
      var i :| 0 <= i < |prefix| && prefix[i] == PasswordDone(Accepted) && Enabled(Reach(prefix[..i]), prefix[i]);
      assert events[..i] == prefix[..i] && events[i] == prefix[i];
    }
  }

  /** Two Unlock clicks whose replies come back accepted, then rejected: the prompt is gone,
      and the late rejection shows "Incorrect password" under the download button. */
  lemma LateRejectionShowsUnderDownload(s: PageState)
    requires ViewOf(s).PasswordForm? && s.fileData.Some?
    ensures var t := Step(Step(Step(Step(s, PasswordClicked), PasswordClicked), PasswordDone(Accepted)),
                          PasswordDone(Rejected("")));
            ViewOf(t) == DownloadForm(s.fileData, PasswordFallback, s.downloading)
  {
  }
}

=== FILE: file_list.dfy ===
/** The list view model shared by the dashboard's "Your Uploads" table and the guest's
    "Your Uploaded Files" table: search, type and status filters, ten-per-page pagination,
    and the Previous/Next controls. Both components carry identical copies of this logic. */
module FileList {
  import opened Options
  import opened Seqs
  import opened Text

  /** An uploaded file as the tables see it. `id` is the server's `_id` on the dashboard and
      the stored `id` in the guest table. `daysLeft` stands for
      `differenceInDays(new Date(file.expiresAt), new Date())`, which the caller supplies;
      `None` is the `NaN` that a missing `expiresAt` gives, which compares false with every
      number; a `null` one is the 1970 epoch, an ordinary expired `Some(d)`. */
  datatype SharedFile = SharedFile(
    id: string,
    name: string,
    mimeType: string,
    isPassword: bool,
    daysLeft: Option<int>,
    shortUrl: string,
    path: string)

  /** The three filter controls. The empty string means "not set". */
  datatype Query = Query(searchTerm: string, filterType: string, filterStatus: string)

  /** What the "Reset" button restores, and the initial state of the controls. */
  const NoFilter := Query("", "", "")

  const ItemsPerPage: nat := 10

  /** Case-insensitive substring test of the search box against the file name. */
  predicate NameMatches(f: SharedFile, searchTerm: string) {
    Includes(ToLower(f.name), ToLower(searchTerm))
  }

  predicate TypeMatches(f: SharedFile, filterType: string) {
    filterType == "" || f.mimeType == filterType
  }

  /** `diff <= 0`: a file counts as expired once fewer than one whole day remains. */
  predicate IsExpired(f: SharedFile) {
    f.daysLeft.Some? && f.daysLeft.value <= 0
  }

  /** `diff > 0`: at least one whole day remains. */
  predicate HasDaysLeft(f: SharedFile) {
    f.daysLeft.Some? && f.daysLeft.value > 0
  }

  /** "expired" keeps expired files; any other non-empty value (the select offers "active")
      keeps files with at least one whole day left. */
  predicate StatusMatches(f: SharedFile, filterStatus: string) {
    if filterStatus == "" then true
    else if filterStatus == "expired" then IsExpired(f)
    else HasDaysLeft(f)
  }

  predicate Matches(f: SharedFile, q: Query) {
    NameMatches(f, q.searchTerm) && TypeMatches(f, q.filterType) && StatusMatches(f, q.filterStatus)
  }

  /** The test `filteredFiles` applies to each file. */
  function Passes(q: Query): SharedFile -> bool {
    (f: SharedFile) => Matches(f, q)
  }

  /** `filteredFiles`: the files passing all three filters, in their original order. */
  function Filtered(files: seq<SharedFile>, q: Query): (r: seq<SharedFile>)
    ensures IsSubsequence(r, files)
    ensures forall i :: 0 <= i < |r| ==> NameMatches(r[i], q.searchTerm)
    ensures forall i :: 0 <= i < |r| ==> q.filterType == "" || r[i].mimeType == q.filterType
    ensures forall i :: 0 <= i < |r| ==> StatusMatches(r[i], q.filterStatus)
    ensures forall f :: multiset(r)[f] == if Matches(f, q) then multiset(files)[f] else 0
  {
    SelectCount(files, Passes(q));
    Select(files, Passes(q))
  }

  /** A file is listed exactly when it is one of the files and passes the filters. */
  lemma FilteredMembership(files: seq<SharedFile>, q: Query, f: SharedFile)
    ensures f in Filtered(files, q) <==> f in files && Matches(f, q)
  {
    SelectMembership(files, Passes(q), f);
  }

  /** With all three controls empty the table lists every file, in order. */
  lemma NoFilterIsIdentity(files: seq<SharedFile>)
    ensures Filtered(files, NoFilter) == files
  {
    assert ToLower("") == "";
    forall i | 0 <= i < |files|
      ensures Matches(files[i], NoFilter)
    {
      IncludesEmpty(ToLower(files[i].name));
    }
  }

  /** The row's `isExpired` and the status filter use the same test; a file without a day
      difference is neither expired nor active. */
  lemma RowExpiryAgreesWithFilter(f: SharedFile)
    ensures IsExpired(f) <==> StatusMatches(f, "expired")
    ensures !IsExpired(f) && f.daysLeft.Some? <==> StatusMatches(f, "active")
    ensures f.daysLeft.None? ==> !IsExpired(f) && !StatusMatches(f, "expired") && !StatusMatches(f, "active")
  {
  }

  /** Files that pass a query apart from its status control and have no day difference. */
  function Undated(q: Query): SharedFile -> bool {
    (f: SharedFile) => Matches(f, q) && f.daysLeft.None?
  }

  /** Files that pass a query apart from its status control and are not expired. */
  function NotExpired(q: Query): SharedFile -> bool {
    (f: SharedFile) => Matches(f, q) && !IsExpired(f)
  }

  /** The "expired" and "active" filters split the list that the other two controls produce,
      except for files without a day difference, which neither keeps. When every file has a
      day difference, every file lands in exactly one of the two. */
  lemma StatusFiltersPartition(files: seq<SharedFile>, searchTerm: string, filterType: string)
    ensures var any := Query(searchTerm, filterType, "");
            |Filtered(files, Query(searchTerm, filterType, "expired"))|
            + |Filtered(files, Query(searchTerm, filterType, "active"))|
            + |Select(files, Undated(any))|
            == |Filtered(files, any)|
    ensures var any := Query(searchTerm, filterType, "");
            multiset(Filtered(files, Query(searchTerm, filterType, "expired")))
            + multiset(Filtered(files, Query(searchTerm, filterType, "active")))
            + multiset(Select(files, Undated(any)))
            == multiset(Filtered(files, any))
    ensures (forall i :: 0 <= i < |files| ==> files[i].daysLeft.Some?) ==>
              multiset(Filtered(files, Query(searchTerm, filterType, "expired")))
              + multiset(Filtered(files, Query(searchTerm, filterType, "active")))
              == multiset(Filtered(files, Query(searchTerm, filterType, "")))
  {
    var expired, active, any := Query(searchTerm, filterType, "expired"),
      Query(searchTerm, filterType, "active"), Query(searchTerm, filterType, "");
    SelectSplit(files, Passes(any), Passes(expired), NotExpired(any));
    SelectSplit(files, NotExpired(any), Passes(active), Undated(any));
  }

  /** The "Expiry" cell of a row: "Expired", a positive number of days left, or, for a file
      without a day difference, `NaN` where the day count goes. */
  datatype ExpiryLabel = ExpiredLabel | DaysLeft(days: int) | NaNDaysLeft

  function ExpiryCell(f: SharedFile): (l: ExpiryLabel)
    ensures l.ExpiredLabel? <==> StatusMatches(f, "expired")
    ensures l.DaysLeft? <==> StatusMatches(f, "active")
    ensures l.DaysLeft? ==> l.days > 0 && f.daysLeft == Some(l.days)
    ensures l.NaNDaysLeft? <==> f.daysLeft.None?
  {
    match f.daysLeft
    case None => NaNDaysLeft
    case Some(d) => if d <= 0 then ExpiredLabel else DaysLeft(d)
  }

  /** `totalPages = Math.ceil(n / itemsPerPage)`. */
  function PageCount(n: nat): (total: nat)
    ensures total * ItemsPerPage >= n
    ensures total == 0 || (total - 1) * ItemsPerPage < n
    ensures total == 0 <==> n == 0
  {
    (n + ItemsPerPage - 1) / ItemsPerPage
  }

  /** `paginatedFiles = filteredFiles.slice((page - 1) * 10, page * 10)`, with JavaScript's
      slice semantics (so a stale or odd page number is not an error). */
  function Page<T>(s: seq<T>, page: int): (r: seq<T>)
    ensures |r| <= ItemsPerPage
    ensures 1 <= page ==> r == s[Min((page - 1) * ItemsPerPage, |s|)..Min(page * ItemsPerPage, |s|)]
    ensures 1 <= page ==> (|r| > 0 <==> page <= PageCount(|s|))
  {
    JsSlice(s, (page - 1) * ItemsPerPage, page * ItemsPerPage)
  }

  /** Pages 1 through `k`, one after another. */
  function AllPages<T>(s: seq<T>, k: nat): seq<T> {
    if k == 0 then [] else AllPages(s, k - 1) + Page(s, k)
  }

  lemma {:induction false} AllPagesIsPrefix<T>(s: seq<T>, k: nat)
    ensures AllPages(s, k) == s[..Min(k * ItemsPerPage, |s|)]
  {
    if k > 0 {
      AllPagesIsPrefix(s, k - 1);
      var a := Min((k - 1) * ItemsPerPage, |s|);
      var b := Min(k * ItemsPerPage, |s|);
      assert s[..a] + s[a..b] == s[..b];
    }
  }

  /** Reading pages 1 through `totalPages` in order shows every listed file exactly once. */
  lemma PagesReassemble<T>(s: seq<T>)
    ensures AllPages(s, PageCount(|s|)) == s
  {
    AllPagesIsPrefix(s, PageCount(|s|));
  }

  /** The Previous button: `Math.max(prev - 1, 1)`. */
  function Previous(page: int): (r: int)
    ensures 1 <= r
    ensures r <= page || page < 1
    ensures page <= 1 ==> r == 1
    ensures 1 < page ==> r == page - 1
  {
    Max(page - 1, 1)
  }

  /** The Next button: `Math.min(prev + 1, totalPages)`. */
  function Next(page: int, total: nat): (r: int)
    ensures r <= total
    ensures total <= page ==> r == total
    ensures page < total ==> r == page + 1
  {
    Min(page + 1, total)
  }

  /** The Previous/Next bar is rendered only when there is more than one page. */
  predicate ControlsShown(total: nat) {
    total > 1
  }

  /** Starting from a page inside `[1, totalPages]`, Previous and Next keep it there, each
      is a no-op exactly at its own bound (where its button is disabled), and one undoes the other. */
  lemma PagerStaysInRange(page: int, total: nat)
    requires 1 <= page <= total
    ensures 1 <= Previous(page) <= total && 1 <= Next(page, total) <= total
    ensures Previous(page) == page <==> page == 1
    ensures Next(page, total) == page <==> page == total
    ensures page < total ==> Previous(Next(page, total)) == page
    ensures 1 < page ==> Next(Previous(page), total) == page
  {
  }

  // ---------------------------------------------------------------------------------------
  // The page number is not tied to the filters. `currentPage` is never reset or clamped when
  // the search box, a filter or a deletion shrinks the list, so the table can show an empty
  // page while files still match, and with one page left the Previous/Next bar is hidden.

  /** The rows rendered, exactly as the components compute them. */
  function ListedAsWritten(files: seq<SharedFile>, q: Query, currentPage: int): (r: seq<SharedFile>)
    ensures |r| <= ItemsPerPage
    ensures forall i :: 0 <= i < |r| ==> r[i] in Filtered(files, q)
  {
    Page(Filtered(files, q), currentPage)
  }

  /** Ten files named "a" with ids "0" to "9", then one named "b" with id "y". */
  function ElevenFiles(): seq<SharedFile> {
    seq(10, i requires 0 <= i < 10 => SharedFile([(48 + i) as char], "a", "text/plain", false, Some(3), "/f/a", "p"))
    + [SharedFile("y", "b", "text/plain", false, Some(3), "/f/y", "p")]
  }

  /** Eleven files, pages 1 -> 2 with no filter, then a query that only the last file
      passes: nothing is listed although a file matches, and there is no control to go back. */
  lemma StalePageHidesMatches(files: seq<SharedFile>, q: Query)
    requires |files| == 11
    requires forall i :: 0 <= i < 10 ==> !Matches(files[i], q)
    requires Matches(files[10], q)
    ensures var page := Next(1, PageCount(|Filtered(files, NoFilter)|));
            && page == 2
            && Filtered(files, q) == [files[10]]
            && ListedAsWritten(files, q, page) == []
            && !ControlsShown(PageCount(|Filtered(files, q)|))
  {
    NoFilterIsIdentity(files);
    assert files[10..] == [files[10]];
    FilteredTail(files, 10, q);
  }

  /** A concrete input for `StalePageHidesMatches`: ten files named "a" and one named "b",
      searched for "b". */
  lemma StalePageExample()
    ensures var files := ElevenFiles();
            && |files| == 11
            && (forall i :: 0 <= i < 10 ==> !Matches(files[i], Query("b", "", "")))
            && Matches(files[10], Query("b", "", ""))
  {
    assert ToLower("a") == "a" && ToLower("b") == "b";
    assert "a"[..1] == "a" && "a"[0] != "b"[0];
    assert !Includes("a", "b");
    assert Includes("b", "b");
  }

  /** Files before position `k` that fail the query do not contribute to the filtered list. */
  lemma {:induction false} FilteredTail(files: seq<SharedFile>, k: nat, q: Query)
    requires k <= |files|
    requires forall i :: 0 <= i < k ==> !Matches(files[i], q)
    ensures Filtered(files, q) == Filtered(files[k..], q)
  {
    if k > 0 {
      assert files[1..][k - 1..] == files[k..];
      FilteredTail(files[1..], k - 1, q);
    }
  }

  /** The page that is actually shown: the current page clamped into `[1, totalPages]`
      (page 1 when nothing matches). */
  function EffectivePage(currentPage: int, total: nat): (p: int)
    ensures 1 <= p
    ensures total == 0 ==> p == 1
    ensures 0 < total ==> p <= total
    ensures 1 <= currentPage <= total ==> p == currentPage
  {
    if total == 0 then 1 else Min(Max(currentPage, 1), total)
  }

  /** The rows rendered once the page is clamped: a page is never empty while a file matches,
      and a page number that is already valid is left alone. */
  function Listed(files: seq<SharedFile>, q: Query, currentPage: int): (r: seq<SharedFile>)
    ensures |r| <= ItemsPerPage
    ensures forall i :: 0 <= i < |r| ==> r[i] in Filtered(files, q)
    ensures |Filtered(files, q)| > 0 ==> |r| > 0
    ensures 1 <= currentPage <= PageCount(|Filtered(files, q)|) ==> r == ListedAsWritten(files, q, currentPage)
  {
    var shown := Filtered(files, q);
    Page(shown, EffectivePage(currentPage, PageCount(|shown|)))
  }
}

=== FILE: guest.dfy ===
/** The guest's table of files uploaded without an account, kept in the browser: name
    display and deletion. Filtering and paging live in `FileList`. */
module Guest {
  import opened Seqs
  import opened Text
  import opened FileList

  const NameLimit: nat := 20

  /** `sortFileName`: names longer than 20 characters are shown as their first 20 plus "...". */
  function DisplayName(name: string): (r: string)
    ensures |name| <= NameLimit ==> r == name
    ensures |name| > NameLimit ==> |r| == NameLimit + 3 && r == name[..NameLimit] + "..."
    ensures Truncate(r, NameLimit) == r
  {
    TruncateIdempotent(name, NameLimit);
    Truncate(name, NameLimit)
  }

  /** `deleteFile` either refuses an empty id ("File ID is invalid.") or stores the new list
      ("File deleted successfully!"). */
  datatype DeleteResult = InvalidId | Deleted(files: seq<SharedFile>)

  /** The test `deleteFile` filters by: the file does not carry `fileId`. */
  function Keeps(fileId: string): SharedFile -> bool {
    (f: SharedFile) => f.id != fileId
  }

  /** The complementary test: the file carries `fileId`. */
  function Carries(fileId: string): SharedFile -> bool {
    (f: SharedFile) => f.id == fileId
  }

  /** `deleteFile(fileId)`: removes every file carrying that id and keeps the rest in order.
      Writing the list to storage and reading it back yields the same list. */
  function DeleteFile(files: seq<SharedFile>, fileId: string): (r: DeleteResult)
    ensures r.InvalidId? <==> fileId == ""
    ensures r.Deleted? ==> IsSubsequence(r.files, files)
    ensures r.Deleted? ==> forall i :: 0 <= i < |r.files| ==> r.files[i].id != fileId
    ensures r.Deleted? ==> forall f :: multiset(r.files)[f] == if f.id != fileId then multiset(files)[f] else 0
  {
    SelectCount(files, Keeps(fileId));
    if fileId == "" then InvalidId else Deleted(Select(files, Keeps(fileId)))
  }

  /** The list after a delete: unchanged when the id was refused. */
  function AfterDelete(files: seq<SharedFile>, fileId: string): seq<SharedFile> {
    match DeleteFile(files, fileId)
    case InvalidId => files
    case Deleted(rest) => rest
  }

  /** Deleting the same id twice is the same as deleting it once. */
  lemma DeleteIdempotent(files: seq<SharedFile>, fileId: string)
    ensures AfterDelete(AfterDelete(files, fileId), fileId) == AfterDelete(files, fileId)
  {
    if fileId != "" {
      SelectIdempotent(files, Keeps(fileId));
    }
  }

  /** Deleting an id no file carries changes nothing. */
  lemma DeleteAbsentId(files: seq<SharedFile>, fileId: string)
    requires forall i :: 0 <= i < |files| ==> files[i].id != fileId
    ensures AfterDelete(files, fileId) == files
  {
  }

  /** Exactly the files carrying the id disappear: the kept files and the files carrying the
      id together make up the old list. */
  lemma DeleteRemovesExactlyMatches(files: seq<SharedFile>, fileId: string)
    requires fileId != ""
    ensures multiset(AfterDelete(files, fileId)) + multiset(Select(files, Carries(fileId))) == multiset(files)
    ensures |files| - |AfterDelete(files, fileId)| == |Select(files, Carries(fileId))|
  {
    SelectComplement(files, Keeps(fileId), Carries(fileId));
  }

  /** Eleven files, pages 1 -> 2, then the only file on page 2 is deleted: page 2 of the
      remaining ten files is empty and, with one page left, there is no control to go back. */
  lemma DeleteEmptiesLastPage(files: seq<SharedFile>)
    requires |files| == 11 && files[10].id != ""
    requires forall i :: 0 <= i < 10 ==> files[i].id != files[10].id
    ensures var page := Next(1, PageCount(|Filtered(files, NoFilter)|));
            var rest := AfterDelete(files, files[10].id);
            && page == 2
            && rest == files[..10]
            && ListedAsWritten(rest, NoFilter, page) == []
            && !ControlsShown(PageCount(|Filtered(rest, NoFilter)|))
  {
    var id := files[10].id;
    NoFilterIsIdentity(files);
    assert files == files[..10] + [files[10]];
    SelectAppend(files[..10], [files[10]], Keeps(id));
    NoFilterIsIdentity(files[..10]);
  }

  /** A concrete input for `DeleteEmptiesLastPage`: the eleven files of the stale-page example
      carry distinct ids. */
  lemma DeleteExample()
    ensures var files := ElevenFiles();
            && |files| == 11 && files[10].id != ""
            && (forall i :: 0 <= i < 10 ==> files[i].id != files[10].id)
  {
  }
}

=== FILE: icons.dfy ===
/** File-type icons. Each screen classifies a MIME type by testing prefixes in a fixed order
    and falls back to a generic icon; the screens differ in which prefixes they test. */
module Icons {
  import opened Text

  datatype Icon = ImageIcon | VideoIcon | AudioIcon | PdfIcon | GenericIcon

  /** The dashboard table (`getFileIcon` in the file list): "image/", "video/", "audio/",
      then exactly "application/pdf". */
  function DashboardIcon(mimeType: string): (icon: Icon)
    ensures icon == ImageIcon <==> StartsWith(mimeType, "image/")
    ensures icon == VideoIcon <==> StartsWith(mimeType, "video/")
    ensures icon == AudioIcon <==> StartsWith(mimeType, "audio/")
    ensures icon == PdfIcon <==> mimeType == "application/pdf"
  {
    if StartsWith(mimeType, "image/") then ImageIcon
    else if StartsWith(mimeType, "video/") then VideoIcon
    else if StartsWith(mimeType, "audio/") then
      assert mimeType[1] == "audio/"[1] != "application/pdf"[1];
      AudioIcon
    else if mimeType == "application/pdf" then PdfIcon
    else GenericIcon
  }

  /** The share-link page: bare prefixes "image", "video", "audio", no PDF case. */
  function DownloadIcon(mimeType: string): (icon: Icon)
    ensures icon != PdfIcon
    ensures icon == ImageIcon <==> StartsWith(mimeType, "image")
    ensures icon == VideoIcon <==> StartsWith(mimeType, "video")
    ensures icon == AudioIcon <==> StartsWith(mimeType, "audio")
  {
    if StartsWith(mimeType, "image") then ImageIcon
    else if StartsWith(mimeType, "video") then VideoIcon
    else if StartsWith(mimeType, "audio") then AudioIcon
    else GenericIcon
  }

  /** The upload queue: "image", then "video", otherwise a generic file icon. */
  function QueueIcon(mimeType: string): (icon: Icon)
    ensures icon in {ImageIcon, VideoIcon, GenericIcon}
    ensures icon == ImageIcon <==> StartsWith(mimeType, "image")
    ensures icon == VideoIcon <==> StartsWith(mimeType, "video")
  {
    if StartsWith(mimeType, "image") then ImageIcon
    else if StartsWith(mimeType, "video") then VideoIcon
    else GenericIcon
  }

  lemma PrefixOfPrefix(s: string, p: string, q: string)
    requires StartsWith(s, p + q)
    ensures StartsWith(s, p)
  {
    assert s[..|p|] == (p + q)[..|p|];
  }

  /** Wherever the dashboard shows an image, video or audio icon, the share-link page shows
      the same one: its bare prefixes are weaker tests than the dashboard's "type/" prefixes. */
  lemma DownloadIconAgreesWithDashboard(mimeType: string)
    ensures DashboardIcon(mimeType) in {ImageIcon, VideoIcon, AudioIcon} ==>
              DownloadIcon(mimeType) == DashboardIcon(mimeType)
  {
    if StartsWith(mimeType, "image/") {
      PrefixOfPrefix(mimeType, "image", "/");
    } else if StartsWith(mimeType, "video/") {
      PrefixOfPrefix(mimeType, "video", "/");
      assert !StartsWith(mimeType, "image");
    } else if StartsWith(mimeType, "audio/") {
      PrefixOfPrefix(mimeType, "audio", "/");
      assert !StartsWith(mimeType, "image") && !StartsWith(mimeType, "video");
    }
  }
}

=== FILE: options.dfy ===
/** Optional values, standing in for JavaScript's `null` / `undefined`. */
module Options {

  datatype Option<+T> = None | Some(value: T)
}

=== FILE: seqs.dfy ===
/** Generic sequence operations behind the client's list handling: `Array.prototype.filter`
    and `Array.prototype.slice`. */
module Seqs {

  function Min(a: int, b: int): int { if a <= b then a else b }

  function Max(a: int, b: int): int { if a <= b then b else a }

  /** `a` is obtained from `b` by deleting elements; what remains keeps its order. */
  predicate IsSubsequence<T(==)>(a: seq<T>, b: seq<T>)
    decreases |b|
  {
    && |a| <= |b|
    && (|a| == 0
        || (a[0] == b[0] && IsSubsequence(a[1..], b[1..]))
        || IsSubsequence(a, b[1..]))
  }

  /** `s.filter(p)`: the elements satisfying `p`, in their original order. */
  function Select<T(==)>(s: seq<T>, p: T -> bool): (r: seq<T>)
    ensures IsSubsequence(r, s)
    ensures |r| == |s| ==> r == s
    ensures forall i :: 0 <= i < |r| ==> r[i] in s && p(r[i])
    ensures forall i :: 0 <= i < |s| && p(s[i]) ==> s[i] in r
    ensures (forall i :: 0 <= i < |s| ==> p(s[i])) <==> r == s
  {
    if |s| == 0 then []
    else if p(s[0]) then [s[0]] + Select(s[1..], p)
    else Select(s[1..], p)
  }

  /** An element is kept exactly when it occurs in the input and satisfies `p`. */
  lemma {:induction false} SelectMembership<T>(s: seq<T>, p: T -> bool, x: T)
    ensures x in Select(s, p) <==> x in s && p(x)
  {
    if |s| > 0 {
      SelectMembership(s[1..], p, x);
      assert s == [s[0]] + s[1..];
    }
  }

  /** Filtering keeps every copy of a passing element and no copy of a failing one. */
  lemma {:induction false} SelectCount<T>(s: seq<T>, p: T -> bool)
    ensures forall x :: multiset(Select(s, p))[x] == if p(x) then multiset(s)[x] else 0
  {
    if |s| > 0 {
      SelectCount(s[1..], p);
      assert s == [s[0]] + s[1..];
    }
  }

  /** Filtering by a test and by its complement splits the input: every element lands in
      exactly one part. */
  lemma {:induction false} SelectComplement<T>(s: seq<T>, p: T -> bool, q: T -> bool)
    requires forall x :: q(x) == !p(x)
    ensures |Select(s, p)| + |Select(s, q)| == |s|
    ensures multiset(Select(s, p)) + multiset(Select(s, q)) == multiset(s)
  {
    if |s| > 0 {
      SelectComplement(s[1..], p, q);
      assert s == [s[0]] + s[1..];
    }
  }

  /** When a test `p` is the disjoint union of tests `q` and `r`, filtering by `q` and by `r`
      splits what filtering by `p` keeps. */
  lemma {:induction false} SelectSplit<T>(s: seq<T>, p: T -> bool, q: T -> bool, r: T -> bool)
    requires forall x :: p(x) == (q(x) || r(x))
    requires forall x :: !(q(x) && r(x))
    ensures |Select(s, q)| + |Select(s, r)| == |Select(s, p)|
    ensures multiset(Select(s, q)) + multiset(Select(s, r)) == multiset(Select(s, p))
  {
    if |s| > 0 {
      SelectSplit(s[1..], p, q, r);
    }
  }

  /** Filtering twice by the same test is filtering once. */
  lemma {:induction false} SelectIdempotent<T>(s: seq<T>, p: T -> bool)
    ensures Select(Select(s, p), p) == Select(s, p)
  {
    var r := Select(s, p);
    assert forall i :: 0 <= i < |r| ==> p(r[i]);
  }

  /** Filtering distributes over concatenation. */
  lemma {:induction false} SelectAppend<T>(a: seq<T>, b: seq<T>, p: T -> bool)
    ensures Select(a + b, p) == Select(a, p) + Select(b, p)
  {
    if |a| == 0 {
      assert a + b == b;
    } else {
      var rest := a[1..] + b;
      assert a + b == [a[0]] + rest;
      SelectAppend(a[1..], b, p);
      if p(a[0]) {
        calc {
          Select(a + b, p);
          [a[0]] + Select(rest, p);
          [a[0]] + (Select(a[1..], p) + Select(b, p));
          ([a[0]] + Select(a[1..], p)) + Select(b, p);
        }
      }
    }
  }

  /** JavaScript's relative index for `slice`: negative values count back from the end,
      and the result is clamped into `[0, len]`. */
  function RelativeIndex(i: int, len: nat): (k: nat)
    ensures k <= len
    ensures 0 <= i ==> k == Min(i, len)
  {
    if i < 0 then Max(len + i, 0) else Min(i, len)
  }

  /** `s.slice(start, end)`. */
  function JsSlice<T>(s: seq<T>, start: int, end: int): (r: seq<T>)
    ensures |r| <= |s|
    ensures 0 <= start <= end ==> r == s[Min(start, |s|)..Min(end, |s|)]
    ensures 0 <= start && |s| <= start ==> r == []
  {
    var k := RelativeIndex(start, |s|);
    var e := RelativeIndex(end, |s|);
    if k < e then s[k..e] else []
  }
}

=== FILE: text.dfy ===
/** The few JavaScript string operations the client relies on: `toLowerCase`,
    `startsWith`, `includes`, and the "cut and add an ellipsis" display rule. */
module Text {

  /** Lower-cases one character. Only the ASCII letters A-Z are mapped. */
  function LowerChar(c: char): (r: char)
    ensures !('A' <= r <= 'Z')
  {
    if 'A' <= c <= 'Z' then (c as int + 32) as char else c
  }

  /** `s.toLowerCase()`, character by character. */
  function ToLower(s: string): (r: string)
    ensures |r| == |s|
    ensures forall i :: 0 <= i < |s| ==> r[i] == LowerChar(s[i])
  {
    seq(|s|, i requires 0 <= i < |s| => LowerChar(s[i]))
  }

  /** `s.startsWith(prefix)`. */
  predicate StartsWith(s: string, prefix: string) {
    |prefix| <= |s| && s[..|prefix|] == prefix
  }

  /** `s` holds `sub` starting at position `i`. */
  predicate OccursAt(s: string, sub: string, i: int) {
    0 <= i && i + |sub| <= |s| && s[i..i + |sub|] == sub
  }

  /** `s.includes(sub)`: tries every start position from the left. */
  predicate Includes(s: string, sub: string)
    decreases |s|
  {
    StartsWith(s, sub) || (|s| > |sub| && Includes(s[1..], sub))
  }

  /** `Includes` holds exactly when `sub` occurs at some position of `s`. */
  lemma {:induction false} IncludesIffOccurs(s: string, sub: string)
    ensures Includes(s, sub) <==> exists i :: OccursAt(s, sub, i)
    decreases |s|
  {
    if StartsWith(s, sub) {
      assert OccursAt(s, sub, 0);
    } else if |s| > |sub| {
      IncludesIffOccurs(s[1..], sub);
      if Includes(s[1..], sub) {
        var j :| OccursAt(s[1..], sub, j);
        assert s[1..][j..j + |sub|] == s[j + 1..j + 1 + |sub|];
        assert OccursAt(s, sub, j + 1);
      }
      if i :| OccursAt(s, sub, i) {
        assert i != 0;
        assert s[1..][i - 1..i - 1 + |sub|] == s[i..i + |sub|];
        assert OccursAt(s[1..], sub, i - 1);
      }
    } else {
      assert !exists i :: OccursAt(s, sub, i);
    }
  }

  /** Every string includes the empty string, which is why an empty search box matches everything. */
  lemma IncludesEmpty(s: string)
    ensures Includes(s, "")
  {
    assert StartsWith(s, "");
  }

  /** The display rule shared by both file tables: names longer than `limit` are cut to
      their first `limit` characters followed by "...". */
  function Truncate(name: string, limit: nat): (r: string)
    ensures |name| <= limit ==> r == name
    ensures |name| > limit ==> |r| == limit + 3 && StartsWith(r, name[..limit]) && r[limit..] == "..."
  {
    if |name| > limit then name[..limit] + "..." else name
  }

  /** Truncating a displayed name again changes nothing. */
  lemma TruncateIdempotent(name: string, limit: nat)
    ensures Truncate(Truncate(name, limit), limit) == Truncate(name, limit)
  {
    if |name| > limit {
      var t := name[..limit] + "...";
      assert t[..limit] == name[..limit];
    }
  }
}

=== FILE: upload.dfy ===
/** The upload page: the queue of chosen files, the 10 MiB limit, removing a queued file,
    and the checks and form fields of the upload request. */
module Upload {
  import opened Options
  import opened Seqs

  /** A chosen file; only its size matters to the logic here. */
  datatype QueuedFile = QueuedFile(name: string, size: nat, mimeType: string)

  const MaxFileBytes: nat := 10 * 1024 * 1024

  /** The size test `handleFiles` filters by. */
  function Fits(): QueuedFile -> bool {
    (f: QueuedFile) => f.size <= MaxFileBytes
  }

  /** The queue after a drop or a browse, and the toasts raised: a warning when some file
      was skipped, and "N file(s) added" when any was kept. */
  datatype AddResult = AddResult(queue: seq<QueuedFile>, skippedWarning: bool, addedToast: Option<nat>)

  /** The queue after a drop: the old queue, then every incoming file of at most 10 MiB, in
      order, each with as many copies as it had in the drop. */
  function Enqueue(queue: seq<QueuedFile>, incoming: seq<QueuedFile>): (r: seq<QueuedFile>)
    ensures |queue| <= |r| && r[..|queue|] == queue
    ensures IsSubsequence(r[|queue|..], incoming)
    ensures forall i :: |queue| <= i < |r| ==> r[i].size <= MaxFileBytes
    ensures forall f :: multiset(r[|queue|..])[f] == if f.size <= MaxFileBytes then multiset(incoming)[f] else 0
  {
    var valid := Select(incoming, Fits());
    SelectCount(incoming, Fits());
    assert forall f :: multiset(valid)[f] == if f.size <= MaxFileBytes then multiset(incoming)[f] else 0;
    assert (queue + valid)[|queue|..] == valid;
    queue + valid
  }

  /** `handleFiles`: queues the files that fit (see `Enqueue`) and raises the toasts. */
  function HandleFiles(queue: seq<QueuedFile>, incoming: seq<QueuedFile>): (r: AddResult)
    ensures r.queue == Enqueue(queue, incoming)
    ensures r.skippedWarning <==> exists i :: 0 <= i < |incoming| && incoming[i].size > MaxFileBytes
    ensures r.addedToast.Some? <==> exists i :: 0 <= i < |incoming| && incoming[i].size <= MaxFileBytes
    ensures r.addedToast.Some? ==> r.addedToast.value == |r.queue| - |queue|
  {
    var valid := Select(incoming, Fits());
    var skipped := |valid| != |incoming|;
    assert skipped ==> exists i :: 0 <= i < |incoming| && incoming[i].size > MaxFileBytes;
    assert |valid| > 0 ==> valid[0] in incoming;
    AddResult(Enqueue(queue, incoming), skipped, if |valid| > 0 then Some(|valid|) else None)
  }

  /** Dropping two batches one after the other queues the same files as dropping them together. */
  lemma TwoBatchesAsOne(queue: seq<QueuedFile>, a: seq<QueuedFile>, b: seq<QueuedFile>)
    ensures HandleFiles(HandleFiles(queue, a).queue, b).queue == HandleFiles(queue, a + b).queue
  {
    var sa := Select(a, Fits());
    var sb := Select(b, Fits());
    SelectAppend(a, b, Fits());
    calc {
      HandleFiles(HandleFiles(queue, a).queue, b).queue;
      Enqueue(Enqueue(queue, a), b);
      (queue + sa) + sb;
      queue + (sa + sb);
      Enqueue(queue, a + b);
      HandleFiles(queue, a + b).queue;
    }
  }

  /** `removeFile(index)`: `prev.filter((_, i) => i !== index)`. */
  method RemoveFile(queue: seq<QueuedFile>, index: int) returns (r: seq<QueuedFile>)
    ensures 0 <= index < |queue| ==> r == queue[..index] + queue[index + 1..]
    ensures 0 <= index < |queue| ==> |r| == |queue| - 1 && multiset(r) + multiset{queue[index]} == multiset(queue)
    ensures !(0 <= index < |queue|) ==> r == queue
  {
    r := [];
    var i := 0;
    while i < |queue|
      invariant 0 <= i <= |queue|
      invariant 0 <= index < i ==> r == queue[..index] + queue[index + 1..i]
      invariant !(0 <= index < i) ==> r == queue[..i]
    {
      if i != index {
        r := r + [queue[i]];
      }
      i := i + 1;
    }
    assert queue[..|queue|] == queue;
    if 0 <= index < |queue| {
      assert queue == queue[..index] + [queue[index]] + queue[index + 1..];
    }
  }

  /** The signed-in account as the uploader reads it. `mongoId` is `_id`; "" stands for absent. */
  datatype Account = Account(email: string, mongoId: string, id: string)

  /** The showcase account that may look around but not upload. */
  const DemoEmail := "demo@sharebox.com"

  /** The toggles and inputs under the drop zone. `expiryDate` is the chosen date as epoch
      milliseconds, `None` while the date field is empty. */
  datatype UploadSettings = UploadSettings(
    enablePassword: bool,
    password: string,
    enableExpiry: bool,
    expiryDate: Option<int>)

  /** The multipart form posted to the server. */
  datatype UploadForm = UploadForm(
    files: seq<QueuedFile>,
    userId: string,
    hasExpiry: bool,
    expiresAt: Option<int>,
    isPassword: bool,
    password: Option<string>)

  /** What `handleUpload` does before the request goes out. `NoSession` is the case where no
      user is loaded: reading its id throws before any request is built. */
  datatype UploadDecision = DemoRefused | EmptyQueueRefused | NoSession | Send(form: UploadForm)

  const MsPerHour: nat := 1000 * 60 * 60

  /** `Math.ceil((expiry - now) / MsPerHour)`: whole hours until the chosen date, rounded up. */
  function ExpiryHours(expiryMs: int, nowMs: int): (h: int)
    ensures h * MsPerHour >= expiryMs - nowMs
    ensures (h - 1) * MsPerHour < expiryMs - nowMs
    ensures expiryMs > nowMs ==> h >= 1
  {
    -((nowMs - expiryMs) / MsPerHour)
  }

  /** `handleUpload` up to the request: the demo check comes first, then the empty-queue
      check; the flags are always sent, the expiry and the password only when enabled and filled in. */
  function HandleUpload(user: Option<Account>, queue: seq<QueuedFile>, settings: UploadSettings, nowMs: int)
    : (d: UploadDecision)
    ensures d.DemoRefused? <==> user.Some? && user.value.email == DemoEmail
    ensures d.EmptyQueueRefused? <==> !d.DemoRefused? && |queue| == 0
    ensures d.NoSession? <==> user.None? && |queue| > 0
    ensures d.Send? ==> user.Some? && d.form.files == queue
    ensures d.Send? ==> d.form.userId == (if user.value.mongoId != "" then user.value.mongoId else user.value.id)
    ensures d.Send? ==> d.form.hasExpiry == settings.enableExpiry && d.form.isPassword == settings.enablePassword
    ensures d.Send? ==> (d.form.expiresAt.Some? <==> settings.enableExpiry && settings.expiryDate.Some?)
    ensures d.Send? && d.form.expiresAt.Some? ==>
              var hours := d.form.expiresAt.value;
              hours * MsPerHour >= settings.expiryDate.value - nowMs > (hours - 1) * MsPerHour
    ensures d.Send? ==> (d.form.password.Some? <==> settings.enablePassword && settings.password != "")
    ensures d.Send? && d.form.password.Some? ==> d.form.password.value == settings.password
  {
    if user.Some? && user.value.email == DemoEmail then DemoRefused
    else if |queue| == 0 then EmptyQueueRefused
    else match user
      case None => NoSession
      case Some(u) =>
        var userId := if u.mongoId != "" then u.mongoId else u.id;
        var expiresAt :=
          if settings.enableExpiry && settings.expiryDate.Some?
          then Some(ExpiryHours(settings.expiryDate.value, nowMs))
          else None;
        var password :=
          if settings.enablePassword && settings.password != "" then Some(settings.password) else None;
        Send(UploadForm(queue, userId, settings.enableExpiry, expiresAt, settings.enablePassword, password))
  }

  /** The queue and the progress bar. */
  datatype Uploader = Uploader(queue: seq<QueuedFile>, progress: nat)

  /** What the upload request came back with; `serverError` is "" when the reply had none. */
  datatype UploadOutcome = Uploaded | UploadFailed(serverError: string)

  /** After the request: success empties the queue, failure keeps it for another try; the
      progress bar is reset either way. Returns the new state and the toast text. */
  function FinishUpload(st: Uploader, outcome: UploadOutcome): (r: (Uploader, string))
    ensures r.0.progress == 0
    ensures outcome.Uploaded? ==> r.0.queue == []
    ensures outcome.UploadFailed? ==> r.0.queue == st.queue
    ensures r.1 != ""
    ensures outcome.Uploaded? ==> r.1 == "Files uploaded successfully!"
    ensures outcome.UploadFailed? ==> r.1 == (if outcome.serverError != "" then outcome.serverError else "Upload failed")
  {
    match outcome
    case Uploaded => (Uploader([], 0), "Files uploaded successfully!")
    case UploadFailed(e) => (Uploader(st.queue, 0), if e != "" then e else "Upload failed")
  }
}

=== FILE: welcome.dfy ===
/** The dashboard's welcome banner: a greeting chosen by the hour of day, and fallbacks for a
    user whose profile fields are missing. */
module Welcome {
  import opened Options

  const Morning := "Good morning"
  const Afternoon := "Good afternoon"
  const Evening := "Good evening"
  const Night := "Good night"

  /** `getGreeting`, for the hour `new Date().getHours()` returns (the caller supplies it). */
  function Greeting(hour: int): (g: string)
    ensures g == Morning <==> 5 <= hour < 12
    ensures g == Afternoon <==> 12 <= hour < 17
    ensures g == Evening <==> 17 <= hour < 21
    ensures g == Night <==> hour < 5 || 21 <= hour
    ensures g in {Morning, Afternoon, Evening, Night}
  {
    if 5 <= hour < 12 then Morning
    else if 12 <= hour < 17 then Afternoon
    else if 17 <= hour < 21 then Evening
    else Night
  }

  /** The profile fields the banner reads; "" stands for a missing field. */
  datatype Profile = Profile(fullname: string, email: string, username: string)

  /** `displayName`: the full name, or "User" for a missing user or an empty name. */
  function DisplayName(user: Option<Profile>): (r: string)
    ensures r != ""
    ensures user.Some? && user.value.fullname != "" ==> r == user.value.fullname
    ensures (user.None? || user.value.fullname == "") ==> r == "User"
  {
    if user.Some? && user.value.fullname != "" then user.value.fullname else "User"
  }

  /** `displayEmail`: the e-mail, or "No email linked". */
  function DisplayEmail(user: Option<Profile>): (r: string)
    ensures r != ""
    ensures user.Some? && user.value.email != "" ==> r == user.value.email
    ensures (user.None? || user.value.email == "") ==> r == "No email linked"
  {
    if user.Some? && user.value.email != "" then user.value.email else "No email linked"
  }

  /** `displayUsername`: "@" and the username, or nothing at all. */
  function DisplayUsername(user: Option<Profile>): (r: string)
    ensures (user.Some? && user.value.username != "") <==> r != ""
    ensures r != "" ==> r[0] == '@' && r[1..] == user.value.username
  {
    if user.Some? && user.value.username != "" then "@" + user.value.username else ""
  }
}
